=== FILE: README.md ===
# Portfolio page script — a Dafny model of its stateful widgets

`script.js` drives a personal portfolio page. This project models the four pieces of it
that carry real sequential logic, as immutable records and pure functions:

- **Carousel** (`setupCarousel`): an index over `n >= 2` slides, moved by the previous and
  next buttons, by the indicator dots and by a repeating auto-advance timer that pointer
  hover pauses. The render step (`updateCarousel`) shows one slide and lights one dot.
  Module `Carousel`.
- **Contact form** (`setupFormValidation`): the e-mail shape test `^[^\s@]+@[^\s@]+\.[^\s@]+$`,
  the trimmed-emptiness checks, resetting and setting the error markers, and the success path.
  Modules `ContactForm` and `Text`. `Text` defines JavaScript white space and `trim`.
- **Project filter** (`setupProjectFilter`): which button is active and which cards are shown.
  Module `ProjectFilter`.
- **Theme toggle** (`setupDarkModeToggle`): a flag read from local storage, flipped on each
  click and written back as `"enabled"` or `"disabled"`. Module `Theme`.

`Indicators` holds the one-hot rows shared by the carousel dots and the filter buttons.
`Wrappers` holds `Option`.

Environment inputs are parameters:

- the element lookups become `Option`s and booleans;
- `localStorage` is a `map<string, string>`;
- timer firings are `Tick` events, possible only while a timer exists;
- pointer movement is the `MouseEnter` and `MouseLeave` events.

Two points of the model need stating up front:

- The theme's body class is *toggled* on click, not set from the flag. The model does
  the same, so a page that starts with the class and a light flag stays out of step.
- The carousel's `mouseleave` handler adds a timer without removing the one already
  running (see Findings). `Carousel.Step`, and every carousel lemma built on it, models
  the corrected handler, which replaces the running timer. `Carousel.Machine` and its
  members model the code as written. `Carousel.AsWrittenAgreesUnlessLeaveWhileRunning`
  states that the two differ only on a `mouseleave` while the timer runs.

## Model

| member | source | states |
|---|---|---|
| Text.Trim | script.js:143 | trimming gives the unique slice of the value that has only white space around it and neither starts nor ends with white space |
| Text.TrimIsUnique | script.js:143 | the trim characterisation admits one result only, so it pins `trim` down completely |
| Text.TrimEmptyIffAllWhitespace | script.js:143-156 | a field's trimmed value is empty exactly when the value is white space only |
| Text.TrimOfTrimmed | script.js:143 | a value with no surrounding white space is unchanged by trimming |
| ContactForm.IsValidEmail | script.js:167-170 | an address passes exactly when `^[^\s@]+@[^\s@]+\.[^\s@]+$` matches it: a non-empty run, `@`, a non-empty run, `.`, a non-empty run, none of the runs holding white space or `@` |
| ContactForm.EmailShapeMatchesPattern | script.js:167-170 | the character-level reading (no white space, one `@` not at the start, an inner dot after it) accepts exactly the strings the regular expression matches |
| ContactForm.EmailExamples | script.js:167-170 | `a@b.co` is accepted; `a@b`, `ab.co` and the empty string are rejected |
| ContactForm.WhitespaceRejected | script.js:168 | any white-space character anywhere rejects the address |
| ContactForm.SecondAtRejected | script.js:168 | any second `@` rejects the address |
| ContactForm.ValidEmailIsNotBlank | script.js:148 | a valid address is never blank, so the extra emptiness test on the e-mail field never decides alone |
| ContactForm.PaddedEmailRejected | script.js:148 | the test runs on the untrimmed value: leading or trailing white space rejects an address whose trimmed value passes |
| ContactForm.MarkIf | script.js:173-176 | a failing field gets both its `invalid` and its `visible` marker; a passing one keeps the markers the reset left |
| ContactForm.ResetValidation | script.js:179-185 | every `invalid` and `visible` marker is cleared, whatever it was |
| ContactForm.Submit | script.js:129-164 | name and message are flagged iff their trimmed value is empty; e-mail iff its trimmed value is empty or the untrimmed value fails the e-mail test; each error element is visible iff its field is flagged; success iff nothing is flagged; success clears the values and failure keeps them |
| ContactForm.SubmitIgnoresEarlierMarkers | script.js:138 | markers left by earlier attempts have no influence on a submit |
| ContactForm.SubmitSucceedsIff | script.js:141-158 | a submit succeeds iff name and message each hold a non-white-space character and the untrimmed e-mail matches the pattern |
| ContactForm.ResubmitAfterSuccessFlagsAll | script.js:158-161 | after a success the values are cleared, so the next submit flags all three fields |
| ContactForm.ResubmitAfterFailureIsStable | script.js:141-157 | a failed submit keeps the values, so resubmitting gives the same result |
| ProjectFilter.Click | script.js:103-119 | after a click only the clicked button is active; a card is shown (`flex`) iff the filter is `"all"` or one of the card's classes, otherwise hidden; class sets, buttons and card count are unchanged; an absent `data-filter` selects the class `"null"` |
| ProjectFilter.ClickActivatesOnlyClicked | script.js:105-108 | exactly one button is active after a click, the clicked one |
| ProjectFilter.LastClickDecides | script.js:103-119 | the page after two clicks equals the page after the last click alone |
| ProjectFilter.AllShowsEveryCard | script.js:114-115 | the `"all"` button shows every card |
| ProjectFilter.CategoryShowsOnlyTagged | script.js:114-118 | any other category shows exactly the cards tagged with it |
| Theme.Marker | script.js:40 | the stored value is always one of the two markers |
| Theme.Setup | script.js:18-30 | no button, no effect; otherwise the flag is true exactly when storage holds `"enabled"` under `darkMode`; only a dark flag sets the body class and the sun label |
| Theme.Click | script.js:32-41 | a click flips the flag and toggles the body class; the label matches the new flag; the flag's marker is stored under `darkMode`; other keys keep their values |
| Theme.MarkerRoundTrip | script.js:24-40 | a written marker reads back as the flag that wrote it |
| Theme.ClickPersists | script.js:24-40 | after a click, storage holds the flag's marker and the next page load reads back that flag |
| Theme.ClickKeepsConsistent | script.js:32-41 | when flag, body class, label and stored value agree, they still agree after a click |
| Theme.SetupIsConsistent | script.js:24-30 | a page that starts light with the moon label and has a stored marker starts with everything in agreement |
| Theme.TwoClicksRestore | script.js:32-41 | two clicks restore the flag and the body class of any state, and the whole state once label and stored value match the flag |
| Theme.ClickedStateCycles | script.js:32-41 | from the first click on, the state repeats with period two |
| Theme.PreDarkBodyStaysOutOfStep | script.js:27-34 | a page that starts with `dark-mode` on the body but no stored `"enabled"` keeps body class and flag in disagreement |
| Carousel.NextIndex | script.js:240-243 | next moves to the following slide and wraps from the last to the first |
| Carousel.PrevIndex | script.js:235-238 | previous moves to the preceding slide and wraps from the first to the last |
| Carousel.PrevUndoesNext | script.js:235-243 | previous undoes next and next undoes previous |
| Carousel.Setup | script.js:189-249 | a missing container or at most one slide gives no carousel; otherwise it starts at slide 0 with its timer running |
| Carousel.Step | script.js:235-267 | every handler keeps the index below `n`; next and a timer firing move to the next index, previous to the preceding one, a dot click to that dot; buttons, dots and timer firings leave the timer alone; entering stops it and leaving starts it, both without moving the index |
| Carousel.Run | script.js:235-267 | every possible event sequence keeps the index below `n` |
| Carousel.NextPressesAdvance | script.js:240-249 | `k` next presses, or `k` firings of a running timer, move the index from `i` to `(i + k) mod n` |
| Carousel.PrevPressesRetreat | script.js:235-238 | `k` previous presses move the index from `i` to `(i - k) mod n` |
| Carousel.PressesFromStart | script.js:231-243 | from set-up, `k` next presses show slide `k mod n` and `k` previous presses show slide `(-k) mod n` |
| Carousel.HoverPausesAutoAdvance | script.js:252-261 | once the pointer has entered, no auto-advance happens until it leaves |
| Carousel.OnlyPointerMovesTimer | script.js:235-249 | button presses, dot clicks and timer firings never start or stop the timer |
| Carousel.Render | script.js:270-288 | the render shows exactly one slide and lights exactly one dot, both at the current index |
| Carousel.RenderIsTheOnlyOneHotView | script.js:270-288 | any page with exactly one slide shown and one dot lit, both at the current index, is the page the render produces |
| Indicators.CountOneIsOneHot | script.js:281-287 | a row of markers with exactly one marker on, at `k`, is the row lit at `k` alone |
| Carousel.RenderIsIdempotent | script.js:270-288 | rendering twice equals rendering once, and the result does not depend on what the page showed before |
| Carousel.CreatedDots | script.js:213-216 | the created dots have exactly one active dot, dot 0 |
| Carousel.SetupShowsFirstSlide | script.js:213-232 | set-up shows slide 0 only, and its first render leaves the created dots unchanged |
| Carousel.TraceKeepsOneSlideShown | script.js:231-288 | after any event sequence from set-up, exactly one slide is shown and one dot lit, at the current index |
| Carousel.ThreeSlideExample | script.js:240-243 | with three slides, next shows slide 1 with dot 1 active, and two more presses wrap to slide 0 |
| Carousel.MachineSetup | script.js:189-249 | the source's set-up keeps the slide count, starts at slide 0, and starts one live interval, named by `intervalId`; with a missing container or fewer than two slides it does nothing |
| Carousel.MachineStep | script.js:252-261 | as written, `mouseleave` adds an interval and `mouseenter` removes only the one `intervalId` names |
| Carousel.SetupsAgree | script.js:189-249 | the source's set-up and the model's set-up describe the same state |
| Carousel.AsWrittenAgreesUnlessLeaveWhileRunning | script.js:235-261 | the source's handlers and `Step` stay in step on every event except a `mouseleave` while the timer runs |
| Carousel.LeaveWithoutEnterLeaksInterval | script.js:252-261 | as written, a `mouseleave` without a preceding `mouseenter` leaves a live interval after the next `mouseenter` |
| Carousel.LeakExample | script.js:252-261 | three slides, pointer inside at set-up, leaves and re-enters: the carousel still advances under the pointer |
| Carousel.EnterAfterLeaveAlwaysPauses | script.js:252-261 | with the corrected `mouseleave`, entering after leaving always stops auto-advance |

## Left out

- Smooth scrolling (script.js:4-15) is left out: it is window scrolling with pixel offsets.
- Scroll animations (script.js:45-59) are left out: they depend on the browser's `IntersectionObserver` and a fractional threshold.
- The typewriter (script.js:62-79) and skill bars (script.js:82-93) are left out: they are timer-driven cosmetic effects.
- Theme-button injection and the page-load wiring (script.js:292-324) are left out: they build DOM and call the set-up functions.
- Timers are abstracted. The 5000 ms period and the timer's phase are not modelled; `Tick` is one firing of a live interval.
- The created control markup is not modelled: buttons, indicator container and their class names.
- `style.display` strings are modelled only as shown and hidden.
- `alert` is modelled only as the `succeeded` flag.
- `contactForm.reset()` is modelled as setting the three values to the empty string. This assumes the fields' default values are empty.
- `resetValidation` clears every input, textarea and error element of the form. The model tracks only the three named fields and their error elements.
- The submit handler assumes the three fields and their error elements exist; missing ones would throw in the source. That case is not modelled.
- `localStorage` exceptions are not modelled, such as storage being disabled.
- White space is a fixed character set: the ECMA-262 WhiteSpace and LineTerminator characters, with the Unicode space separators as of Unicode 15.
- ProjectFilter.Click: its requirement that the clicked index names a button stands for the source's listeners existing only on buttons. With no buttons (script.js:100) no click can happen.
- The project filter and the projects carousel are modelled as independent, but in the source they share elements. Both set `style.display` on the same `.project-card` elements (script.js:98, 113-118, 193, 271-277, 320). A filter click can show several carousel slides at once, and the next carousel event hides all but one again. So `Carousel.TraceKeepsOneSlideShown` and `ProjectFilter.Click`'s shown cards each hold only while the other widget stays idle.
- The form model assumes the page markup matches the handler. `showError` marks fields and error elements found by id (script.js:133-135, 174-175). `resetValidation` clears only the form's `input`/`textarea` descendants and its `.error-message` descendants (script.js:180-184). The model treats these as the same six markers. If an error element lacked the `error-message` class, or a field sat outside the form, its marker would survive the reset. `ContactForm.SubmitIgnoresEarlierMarkers` would then fail in the source.
- Carousel.Step: it models the corrected `mouseleave` (see Findings). The source's behaviour is `Carousel.MachineStep`, and `Carousel.AsWrittenAgreesUnlessLeaveWhileRunning` states where the two differ.

## Findings

| source | as written | input that shows it | evidently intended | confidence | as-written member | corrected member |
|---|---|---|---|---|---|---|
| script.js:256-261 | `mouseleave` calls `setInterval` and overwrites `intervalId` without clearing the interval it named | the pointer is already over the carousel at set-up, so no `mouseenter` fires. It then leaves (second interval) and re-enters, and `mouseenter` clears only the newer interval. The slides keep advancing under the pointer, and from then on twice per period whenever the pointer is outside. | at most one interval per carousel, and hovering always pauses | medium; not executed | Carousel.LeakExample | Carousel.EnterAfterLeaveAlwaysPauses |

=== FILE: carousel.dfy ===
/** The slide carousel (`setupCarousel`): an index cycling over `n >= 2` slides, moved by
    the previous/next buttons, the indicator dots and a repeating auto-advance timer that
    hovering pauses, and the render step that shows one slide and lights one dot. */
module Carousel {
  import opened Wrappers
  import opened Indicators

  // ---------------------------------------------------------------------------
  // Index arithmetic

  /** The next-button and auto-advance transition `(i + 1) % n`. */
  function NextIndex(i: nat, n: nat): (r: nat)
    requires i < n
    ensures r < n
    ensures r == if i == n - 1 then 0 else i + 1
  {
    (i + 1) % n
  }

  /** The previous-button transition `(i - 1 + n) % n`. */
  function PrevIndex(i: nat, n: nat): (r: nat)
    requires i < n
    ensures r < n
    ensures r == if i == 0 then n - 1 else i - 1
  {
    (i - 1 + n) % n
  }

  /** Previous undoes next, and next undoes previous. */
  lemma PrevUndoesNext(i: nat, n: nat)
    requires i < n
    ensures PrevIndex(NextIndex(i, n), n) == i
    ensures NextIndex(PrevIndex(i, n), n) == i
  {
  }

  /** A positive multiple of a positive number is at least that number. */
  lemma {:induction false} MulAtLeast(d: nat, n: int)
    requires d >= 1 && n > 0
    ensures d * n >= n
  {
    if d > 1 {
      MulAtLeast(d - 1, n);
      assert d * n == (d - 1) * n + n;
    }
  }

  /** Any quotient-and-remainder split of `a` is Euclidean division's. */
  lemma ModUnique(a: int, n: int, q: int, r: int)
    requires n > 0 && 0 <= r < n && a == q * n + r
    ensures a % n == r
  {
    var q0 := a / n;
    var d := q - q0;
    assert d * n == a % n - r by {
      assert q * n - q0 * n == (q - q0) * n;
    }
    if d > 0 {
      MulAtLeast(d, n);
    } else if d < 0 {
      MulAtLeast(-d, n);
    }
  }

  /** Reducing the left summand first does not change the remainder of a sum. */
  lemma ModOfSum(a: int, b: int, n: int)
    requires n > 0
    ensures (a % n + b) % n == (a + b) % n
  {
    var s := a + b;
    assert a % n + b == (s / n - a / n) * n + s % n by {
      assert (s / n - a / n) * n == (s / n) * n - (a / n) * n;
    }
    ModUnique(a % n + b, n, s / n - a / n, s % n);
  }

  /** Adding the modulus does not change a remainder. */
  lemma ModAddModulus(y: int, n: int)
    requires n > 0
    ensures (y + n) % n == y % n
  {
    assert y + n == (y / n + 1) * n + y % n;
    ModUnique(y + n, n, y / n + 1, y % n);
  }

  // ---------------------------------------------------------------------------
  // State machine

  /** One carousel: `n` slides, the current index, and whether the auto-advance timer runs. */
  datatype State = State(n: nat, current: nat, timerRunning: bool) {
    predicate Valid() {
      n >= 2 && current < n
    }
  }

  /** What can happen to a carousel: the two buttons, one firing of the auto-advance
      timer, a click on dot `index`, and the pointer entering or leaving the container. */
  datatype Event = Prev | Next | Tick | Dot(index: nat) | MouseEnter | MouseLeave

  /** Events that can occur in a state: the timer fires only while it exists, and there
      are only `n` dots to click. */
  predicate Enabled(c: State, e: Event) {
    match e
    case Tick => c.timerRunning
    case Dot(i) => i < c.n
    case _ => true
  }

  /** Set-up on a container holding `items` matching slides (`None` when the container is
      missing): nothing happens for a missing container or fewer than two slides;
      otherwise the carousel starts at slide 0 with its timer running. */
  function Setup(items: Option<nat>): (r: Option<State>)
    ensures r.None? <==> items.None? || items.value <= 1
    ensures r.Some? ==> r.value.Valid() && r.value.n == items.value
    ensures r.Some? ==> r.value.current == 0 && r.value.timerRunning
  {
    match items
    case None => None
    case Some(count) => if count <= 1 then None else Some(State(count, 0, true))
  }

  /** The handlers. `mouseleave` starts one fresh timer in place of any existing one. */
  function Step(c: State, e: Event): (r: State)
    requires c.Valid() && Enabled(c, e)
    ensures r.Valid() && r.n == c.n
    ensures !e.MouseEnter? && !e.MouseLeave? ==> r.timerRunning == c.timerRunning
    ensures e.MouseEnter? || e.MouseLeave? ==> r.current == c.current
    ensures e.MouseEnter? ==> !r.timerRunning
    ensures e.MouseLeave? ==> r.timerRunning
    ensures e.Dot? ==> r.current == e.index
    ensures e.Next? || e.Tick? ==> r.current == NextIndex(c.current, c.n)
    ensures e.Prev? ==> r.current == PrevIndex(c.current, c.n)
  {
    match e
    case Prev => c.(current := PrevIndex(c.current, c.n))
    case Next => c.(current := NextIndex(c.current, c.n))
    case Tick => c.(current := NextIndex(c.current, c.n))
    case Dot(i) => c.(current := i)
    case MouseEnter => c.(timerRunning := false)
    case MouseLeave => c.(timerRunning := true)
  }

  /** `events` can happen one after another starting from `c`. */
  predicate ValidTrace(c: State, events: seq<Event>)
    requires c.Valid()
    decreases |events|
  {
    |events| == 0 || (Enabled(c, events[0]) && ValidTrace(Step(c, events[0]), events[1..]))
  }

  /** The state after the events of a trace. */
  function Run(c: State, events: seq<Event>): (r: State)
    requires c.Valid() && ValidTrace(c, events)
    ensures r.Valid() && r.n == c.n
    decreases |events|
  {
    if |events| == 0 then c else Run(Step(c, events[0]), events[1..])
  }

  function Repeat(e: Event, k: nat): (r: seq<Event>)
    ensures |r| == k && forall i :: 0 <= i < k ==> r[i] == e
  {
    seq(k, _ => e)
  }

  /** Button presses are always possible, and so are timer firings while the timer runs. */
  lemma {:induction false} PressesAreValid(c: State, e: Event, k: nat)
    requires c.Valid() && (e == Next || e == Prev || (e == Tick && c.timerRunning))
    ensures ValidTrace(c, Repeat(e, k))
    decreases k
  {
    if k > 0 {
      assert Repeat(e, k)[1..] == Repeat(e, k - 1);
      PressesAreValid(Step(c, e), e, k - 1);
    }
  }

  /** `k` presses of next, or `k` auto-advances of a running timer, move the index
      forward by `k`, modulo `n`. */
  lemma {:induction false} NextPressesAdvance(c: State, e: Event, k: nat)
    requires c.Valid() && (e == Next || (e == Tick && c.timerRunning))
    ensures ValidTrace(c, Repeat(e, k))
    ensures Run(c, Repeat(e, k)).current == (c.current + k) % c.n
    decreases k
  {
    PressesAreValid(c, e, k);
    if k == 0 {
      ModUnique(c.current, c.n, 0, c.current);
    } else {
      var es := Repeat(e, k);
      var c' := Step(c, e);
      assert es[0] == e && es[1..] == Repeat(e, k - 1);
      assert Run(c, es) == Run(c', Repeat(e, k - 1));
      NextPressesAdvance(c', e, k - 1);
      assert c'.current == (c.current + 1) % c.n;
      assert (c'.current + (k - 1)) % c.n == (c.current + k) % c.n by {
        ModOfSum(c.current + 1, k - 1, c.n);
      }
    }
  }

  /** `k` presses of previous move the index back by `k`, modulo `n`. */
  lemma {:induction false} PrevPressesRetreat(c: State, k: nat)
    requires c.Valid()
    ensures ValidTrace(c, Repeat(Prev, k))
    ensures Run(c, Repeat(Prev, k)).current == (c.current - k) % c.n
    decreases k
  {
    PressesAreValid(c, Prev, k);
    if k == 0 {
      ModUnique(c.current, c.n, 0, c.current);
    } else {
      var es := Repeat(Prev, k);
      var c' := Step(c, Prev);
      assert es[0] == Prev && es[1..] == Repeat(Prev, k - 1);
      assert Run(c, es) == Run(c', Repeat(Prev, k - 1));
      PrevPressesRetreat(c', k - 1);
      assert c'.current == (c.current - 1 + c.n) % c.n;
      assert (c'.current - (k - 1)) % c.n == (c.current - k) % c.n by {
        ModOfSum(c.current - 1 + c.n, -(k - 1), c.n);
        ModAddModulus(c.current - k, c.n);
      }
    }
  }

  /** From set-up, `k` presses of next show slide `k % n`, and `k` presses of previous
      show slide `(-k) % n`. */
  lemma PressesFromStart(n: nat, k: nat)
    requires n >= 2
    ensures ValidTrace(Setup(Some(n)).value, Repeat(Next, k))
    ensures Run(Setup(Some(n)).value, Repeat(Next, k)).current == k % n
    ensures ValidTrace(Setup(Some(n)).value, Repeat(Prev, k))
    ensures Run(Setup(Some(n)).value, Repeat(Prev, k)).current == (-(k as int)) % n
  {
    NextPressesAdvance(Setup(Some(n)).value, Next, k);
    PrevPressesRetreat(Setup(Some(n)).value, k);
  }

  /** While the pointer is inside (timer stopped), no auto-advance fires until it leaves. */
  lemma {:induction false} HoverPausesAutoAdvance(c: State, events: seq<Event>)
    requires c.Valid() && ValidTrace(c, events) && !c.timerRunning
    requires forall i :: 0 <= i < |events| ==> events[i] != MouseLeave
    ensures forall i :: 0 <= i < |events| ==> events[i] != Tick
    ensures !Run(c, events).timerRunning
    decreases |events|
  {
    if |events| > 0 {
      var rest := events[1..];
      assert forall i :: 0 <= i < |rest| ==> rest[i] == events[i + 1];
      HoverPausesAutoAdvance(Step(c, events[0]), rest);
    }
  }

  /** Button presses, dot clicks and timer firings never start or stop the timer: only
      the pointer does. */
  lemma {:induction false} OnlyPointerMovesTimer(c: State, events: seq<Event>)
    requires c.Valid() && ValidTrace(c, events)
    requires forall i :: 0 <= i < |events| ==> events[i] != MouseEnter && events[i] != MouseLeave
    ensures Run(c, events).timerRunning == c.timerRunning
    decreases |events|
  {
    if |events| > 0 {
      var rest := events[1..];
      assert forall i :: 0 <= i < |rest| ==> rest[i] == events[i + 1];
      OnlyPointerMovesTimer(Step(c, events[0]), rest);
    }
  }

  // ---------------------------------------------------------------------------
  // Render step

  /** What the page shows: which slides have `display: flex` and which dots carry `active`. */
  datatype View = View(shown: seq<bool>, activeDots: seq<bool>)

  /** `updateCarousel`: writes every slide's display and every dot's marker from the
      current index, whatever they were before. */
  function Render(c: State, before: View): (v: View)
    requires c.Valid() && |before.shown| == c.n && |before.activeDots| == c.n
    ensures |v.shown| == c.n && |v.activeDots| == c.n
    ensures CountTrue(v.shown) == 1 && v.shown[c.current]
    ensures CountTrue(v.activeDots) == 1 && v.activeDots[c.current]
  {
    OneHotCountsOne(c.n, c.current);
    View(
      seq(|before.shown|, i => i == c.current),
      seq(|before.activeDots|, i => i == c.current))
  }

  /** Rendering again without a transition in between changes nothing, and the result does
      not depend on what was on the page before. */
  lemma RenderIsIdempotent(c: State, v1: View, v2: View)
    requires c.Valid()
    requires |v1.shown| == c.n && |v1.activeDots| == c.n
    requires |v2.shown| == c.n && |v2.activeDots| == c.n
    ensures Render(c, Render(c, v1)) == Render(c, v1)
    ensures Render(c, v1) == Render(c, v2)
  {
  }

  /** `Render`'s contract pins its result down: any page with exactly one slide shown
      and exactly one dot lit, both at the current index, is the rendered page. */
  lemma RenderIsTheOnlyOneHotView(c: State, before: View, v: View)
    requires c.Valid() && |before.shown| == c.n && |before.activeDots| == c.n
    requires |v.shown| == c.n && CountTrue(v.shown) == 1 && v.shown[c.current]
    requires |v.activeDots| == c.n && CountTrue(v.activeDots) == 1 && v.activeDots[c.current]
    ensures v == Render(c, before)
  {
    CountOneIsOneHot(v.shown, c.current);
    CountOneIsOneHot(v.activeDots, c.current);
  }

  /** The dots as created: only dot 0 carries `active`. */
  function CreatedDots(n: nat): (dots: seq<bool>)
    requires n >= 1
    ensures |dots| == n && CountTrue(dots) == 1 && dots[0]
  {
    OneHotCountsOne(n, 0);
    OneHot(n, 0)
  }

  /** Set-up shows slide 0 and lights dot 0; its first render leaves the freshly created
      dots as they were. */
  lemma SetupShowsFirstSlide(n: nat, slides: seq<bool>)
    requires n >= 2 && |slides| == n
    ensures var v := Render(Setup(Some(n)).value, View(slides, CreatedDots(n)));
      && v.shown[0] && CountTrue(v.shown) == 1
      && v.activeDots == CreatedDots(n)
  {
  }

  /** After any trace from set-up exactly one slide is shown and exactly one dot is
      active, both at the current index. */
  lemma TraceKeepsOneSlideShown(n: nat, events: seq<Event>, before: View)
    requires n >= 2 && ValidTrace(Setup(Some(n)).value, events)
    requires |before.shown| == n && |before.activeDots| == n
    ensures var c := Run(Setup(Some(n)).value, events);
      var v := Render(c, before);
      && c.current < n
      && CountTrue(v.shown) == 1 && v.shown[c.current]
      && CountTrue(v.activeDots) == 1 && v.activeDots[c.current]
  {
  }

  /** Three slides: next shows slide 1 with dot 1 active; two more presses wrap to slide 0. */
  lemma ThreeSlideExample(before: View)
    requires |before.shown| == 3 && |before.activeDots| == 3
    ensures var c1 := Step(Setup(Some(3)).value, Next);
      && c1.current == 1
      && Render(c1, before).shown == [false, true, false]
      && Render(c1, before).activeDots == [false, true, false]
      && Step(Step(c1, Next), Next).current == 0
  {
  }

  // ---------------------------------------------------------------------------
  // The timer handlers as written

  /** The carousel as the source's handlers leave it: `intervals` counts the repeating
      timers still live, and `handleLive` says whether the one `intervalId` names is one
      of them. `mouseenter` clears only that one; `mouseleave` adds a new one without
      clearing anything. */
  datatype Machine = Machine(n: nat, current: nat, intervals: nat, handleLive: bool) {
    predicate Valid() {
      n >= 2 && current < n && (handleLive ==> intervals > 0)
    }
  }

  predicate MachineEnabled(m: Machine, e: Event) {
    match e
    case Tick => m.intervals > 0
    case Dot(i) => i < m.n
    case _ => true
  }

  function MachineSetup(items: Option<nat>): (r: Option<Machine>)
    ensures r.None? <==> items.None? || items.value <= 1
    ensures r.Some? ==> r.value.Valid() && r.value.current == 0
    ensures r.Some? ==> r.value.n == items.value
    ensures r.Some? ==> r.value.intervals == 1 && r.value.handleLive
  {
    match items
    case None => None
    case Some(count) => if count <= 1 then None else Some(Machine(count, 0, 1, true))
  }

  function MachineStep(m: Machine, e: Event): (r: Machine)
    requires m.Valid() && MachineEnabled(m, e)
    ensures r.Valid() && r.n == m.n
    ensures e.MouseLeave? ==> r.intervals == m.intervals + 1 && r.handleLive
    ensures e.MouseEnter? ==> !r.handleLive
    ensures e.MouseEnter? ==> r.intervals == if m.handleLive then m.intervals - 1 else m.intervals
    ensures !e.MouseEnter? && !e.MouseLeave? ==> r.intervals == m.intervals && r.handleLive == m.handleLive
  {
    match e
    case Prev => m.(current := PrevIndex(m.current, m.n))
    case Next => m.(current := NextIndex(m.current, m.n))
    case Tick => m.(current := NextIndex(m.current, m.n))
    case Dot(i) => m.(current := i)
    case MouseEnter =>
      if m.handleLive then m.(intervals := m.intervals - 1, handleLive := false) else m
    case MouseLeave => m.(intervals := m.intervals + 1, handleLive := true)
  }

  /** The as-written machine is in the state `c` describes: same slide, and one live
      interval, named by `intervalId`, exactly when `c`'s timer runs. */
  predicate Agrees(m: Machine, c: State) {
    && m.n == c.n && m.current == c.current
    && m.handleLive == c.timerRunning
    && m.intervals == (if c.timerRunning then 1 else 0)
  }

  /** The handlers as written behave like `Step` on every event except a `mouseleave`
      while the timer runs, which happens when the pointer was already inside the
      container at set-up and so no `mouseenter` preceded it. */
  lemma AsWrittenAgreesUnlessLeaveWhileRunning(m: Machine, c: State, e: Event)
    requires m.Valid() && c.Valid() && Agrees(m, c) && Enabled(c, e)
    requires !(e.MouseLeave? && c.timerRunning)
    ensures MachineEnabled(m, e) && Agrees(MachineStep(m, e), Step(c, e))
  {
  }

  lemma SetupsAgree(items: Option<nat>)
    ensures MachineSetup(items).Some? <==> Setup(items).Some?
    ensures Setup(items).Some? ==> Agrees(MachineSetup(items).value, Setup(items).value)
  {
  }

  /** As written, a `mouseleave` with no `mouseenter` before it leaks an interval: the
      next `mouseenter` leaves the timer count where it was, so auto-advance keeps firing
      while the pointer is over the carousel. */
  lemma LeaveWithoutEnterLeaksInterval(m: Machine)
    requires m.Valid() && m.handleLive
    ensures var hovered := MachineStep(MachineStep(m, MouseLeave), MouseEnter);
      hovered.intervals == m.intervals && MachineEnabled(hovered, Tick)
  {
  }

  /** Concretely: three slides, pointer already inside at set-up, leaves and comes back;
      the carousel still auto-advances under the pointer. */
  lemma LeakExample()
    ensures var m0 := MachineSetup(Some(3)).value;
      var hovered := MachineStep(MachineStep(m0, MouseLeave), MouseEnter);
      && hovered.intervals == 1
      && MachineEnabled(hovered, Tick)
      && MachineStep(hovered, Tick).current == 1
  {
  }

  /** With the intended handler, entering after leaving always pauses the carousel. */
  lemma EnterAfterLeaveAlwaysPauses(c: State)
    requires c.Valid()
    ensures !Step(Step(c, MouseLeave), MouseEnter).timerRunning
    ensures !Enabled(Step(Step(c, MouseLeave), MouseEnter), Tick)
  {
  }
}

=== FILE: contact_form.dfy ===
/** The contact form's submit handler (`setupFormValidation`): the e-mail shape test,
    the validation markers it resets and sets, and the success path. */
module ContactForm {
  import opened Text

  // ---------------------------------------------------------------------------
  // E-mail shape

  /** Index of the first `c` in `s`, or `|s|` when there is none. */
  function IndexOf(s: string, c: char): (k: nat)
    ensures k <= |s|
    ensures k < |s| ==> s[k] == c
    ensures forall i :: 0 <= i < k ==> s[i] != c
  {
    if |s| == 0 then 0
    else if s[0] == c then 0
    else 1 + IndexOf(s[1..], c)
  }

  /** `d` holds a `.` that is neither its first nor its last character. */
  predicate HasInnerDot(d: string) {
    exists k :: 0 < k < |d| - 1 && d[k] == '.'
  }

  /** The e-mail test `isValidEmail`: a string passes exactly when the regular
      expression `^[^\s@]+@[^\s@]+\.[^\s@]+$` matches it. */
  function IsValidEmail(email: string): (ok: bool)
    ensures ok <==> MatchesEmailPattern(email)
  {
    EmailShapeMatchesPattern(email);
    EmailShape(email)
  }

  /** The e-mail test read directly as a property of the characters: no white space,
      a first `@` that is not at the start and is followed by no other `@`, and a part
      after it with an inner dot. */
  predicate EmailShape(email: string) {
    && (forall i :: 0 <= i < |email| ==> !IsWhitespace(email[i]))
    && var at := IndexOf(email, '@');
      && 0 < at < |email|
      && (forall i :: at < i < |email| ==> email[i] != '@')
      && HasInnerDot(email[at + 1..])
  }

  /** Every character of `t` is in the class `[^\s@]`. */
  predicate InClass(t: string) {
    forall i :: 0 <= i < |t| ==> !IsWhitespace(t[i]) && t[i] != '@'
  }

  /** `s` matches `^[^\s@]+@[^\s@]+\.[^\s@]+$`: it splits as `A@B.C` around an `@` at
      `at` and a `.` at `dot`, with `A`, `B` and `C` non-empty runs of the class `[^\s@]`. */
  predicate PatternSplit(s: string, at: int, dot: int) {
    && 0 < at && at + 1 < dot && dot + 1 < |s|
    && s[at] == '@' && s[dot] == '.'
    && InClass(s[..at]) && InClass(s[at + 1..dot]) && InClass(s[dot + 1..])
  }

  ghost predicate MatchesEmailPattern(s: string) {
    exists at, dot :: PatternSplit(s, at, dot)
  }

  /** The direct reading and the regular expression accept the same strings. */
  lemma EmailShapeMatchesPattern(s: string)
    ensures EmailShape(s) <==> MatchesEmailPattern(s)
  {
    if EmailShape(s) {
      var at := IndexOf(s, '@');
      var d := s[at + 1..];
      var k :| 0 < k < |d| - 1 && d[k] == '.';
      var dot := at + 1 + k;
      assert s[dot] == d[k];
      assert PatternSplit(s, at, dot);
    }
    if MatchesEmailPattern(s) {
      var at, dot :| PatternSplit(s, at, dot);
      SplitCharacters(s, at, dot);
      assert IndexOf(s, '@') == at by {
        FirstOccurrence(s, '@', at);
      }
      assert s[at + 1..][dot - at - 1] == '.';
    }
  }

  /** Every character of a pattern split is outside `\s`, and the only `@` is at `at`. */
  lemma SplitCharacters(s: string, at: int, dot: int)
    requires PatternSplit(s, at, dot)
    ensures forall i :: 0 <= i < |s| ==> !IsWhitespace(s[i])
    ensures forall i :: 0 <= i < |s| && i != at ==> s[i] != '@'
  {
  }

  /** `IndexOf` finds a character whose every predecessor differs from it. */
  lemma FirstOccurrence(s: string, c: char, k: nat)
    requires k < |s| && s[k] == c
    requires forall i :: 0 <= i < k ==> s[i] != c
    ensures IndexOf(s, c) == k
  {
  }

  /** The sample addresses: `a@b.co` passes; `a@b`, `ab.co` and the empty string fail. */
  lemma EmailExamples()
    ensures IsValidEmail("a@b.co")
    ensures !IsValidEmail("a@b")
    ensures !IsValidEmail("ab.co")
    ensures !IsValidEmail("")
  {
    SampleAccepted();
    SamplesRejected();
  }

  lemma SampleAccepted()
    ensures IsValidEmail("a@b.co")
  {
    assert IndexOf("a@b.co", '@') == 1;
    assert "a@b.co"[2..][1] == '.';
  }

  lemma SamplesRejected()
    ensures !IsValidEmail("a@b") && !IsValidEmail("ab.co") && !IsValidEmail("")
  {
    assert IndexOf("a@b", '@') == 1;
    assert IndexOf("ab.co", '@') == 5;
  }

  /** Any white-space character anywhere makes the address invalid. */
  lemma WhitespaceRejected(s: string, i: nat)
    requires i < |s| && IsWhitespace(s[i])
    ensures !IsValidEmail(s)
  {
  }

  /** Any second `@` makes the address invalid. */
  lemma SecondAtRejected(s: string, i: nat, j: nat)
    requires i < j < |s| && s[i] == '@' && s[j] == '@'
    ensures !IsValidEmail(s)
  {
  }

  /** A valid address is never blank, so the source's separate emptiness test on the
      e-mail field never decides the outcome on its own. */
  lemma ValidEmailIsNotBlank(s: string)
    requires IsValidEmail(s)
    ensures Trim(s) != []
  {
  }

  /** The e-mail test runs on the untrimmed value: surrounding white space makes an
      otherwise valid address fail, although its trimmed value passes. */
  lemma PaddedEmailRejected(s: string, c: char)
    requires IsValidEmail(s) && IsWhitespace(c)
    ensures !IsValidEmail([c] + s) && !IsValidEmail(s + [c])
    ensures IsValidEmail(Trim([c] + s)) && IsValidEmail(Trim(s + [c]))
  {
    WhitespaceRejected([c] + s, 0);
    WhitespaceRejected(s + [c], |s|);
    assert !IsWhitespace(s[0]) && !IsWhitespace(s[|s| - 1]);
    TrimOfPadded(s, c);
  }

  // ---------------------------------------------------------------------------
  // Submit handler

  /** The three named fields' current values. */
  datatype Fields = Fields(name: string, email: string, message: string)

  /** One field's error state: the field's `invalid` class and its error element's
      `visible` class. */
  datatype Marker = Marker(invalid: bool, errorVisible: bool)

  datatype Markers = Markers(name: Marker, email: Marker, message: Marker)

  datatype Form = Form(fields: Fields, markers: Markers)

  /** The form after a submit attempt, and whether the success alert was shown. */
  datatype Submission = Submission(form: Form, succeeded: bool)

  const Cleared := Marker(false, false)
  const Shown := Marker(true, true)

  predicate IsBlank(s: string) {
    Trim(s) == []
  }

  /** `resetValidation`: every marker is cleared, whatever it was. */
  function ResetValidation(m: Markers): (r: Markers)
    ensures !r.name.invalid && !r.email.invalid && !r.message.invalid
    ensures !r.name.errorVisible && !r.email.errorVisible && !r.message.errorVisible
  {
    m.(name := Cleared, email := Cleared, message := Cleared)
  }

  /** `showError` applied when `failed`, otherwise the marker is left as it is. */
  function MarkIf(failed: bool, m: Marker): (r: Marker)
    ensures failed ==> r.invalid && r.errorVisible
    ensures !failed ==> r == m
  {
    if failed then Shown else m
  }

  /** The submit handler: reset all markers, flag each failing field, and on success
      alert and reset the form's values. */
  function Submit(form: Form): (r: Submission)
    ensures r.form.markers.name.invalid <==> IsBlank(form.fields.name)
    ensures r.form.markers.email.invalid <==> IsBlank(form.fields.email) || !IsValidEmail(form.fields.email)
    ensures r.form.markers.message.invalid <==> IsBlank(form.fields.message)
    ensures r.form.markers.name.errorVisible == r.form.markers.name.invalid
    ensures r.form.markers.email.errorVisible == r.form.markers.email.invalid
    ensures r.form.markers.message.errorVisible == r.form.markers.message.invalid
    ensures r.succeeded <==>
      !r.form.markers.name.invalid && !r.form.markers.email.invalid && !r.form.markers.message.invalid
    ensures r.succeeded ==> r.form.fields == Fields("", "", "")
    ensures !r.succeeded ==> r.form.fields == form.fields
  {
    var f := form.fields;
    var m := ResetValidation(form.markers);
    var m := m.(name := MarkIf(IsBlank(f.name), m.name));
    var m := m.(email := MarkIf(IsBlank(f.email) || !IsValidEmail(f.email), m.email));
    var m := m.(message := MarkIf(IsBlank(f.message), m.message));
    var ok := !m.name.invalid && !m.email.invalid && !m.message.invalid;
    Submission(Form(if ok then Fields("", "", "") else f, m), ok)
  }

  /** The outcome of a submit does not depend on the markers left by earlier attempts. */
  lemma SubmitIgnoresEarlierMarkers(f: Fields, m1: Markers, m2: Markers)
    ensures Submit(Form(f, m1)) == Submit(Form(f, m2))
  {
  }

  /** A submit succeeds exactly when name and message hold a non-white-space character
      and the untrimmed e-mail matches the pattern. */
  lemma SubmitSucceedsIff(form: Form)
    ensures Submit(form).succeeded <==>
      && !AllWhitespace(form.fields.name)
      && !AllWhitespace(form.fields.message)
      && MatchesEmailPattern(form.fields.email)
  {
    TrimEmptyIffAllWhitespace(form.fields.name);
    TrimEmptyIffAllWhitespace(form.fields.message);
    if IsValidEmail(form.fields.email) {
      ValidEmailIsNotBlank(form.fields.email);
    }
  }

  /** After a successful submit the values are gone, so submitting again flags all three fields. */
  lemma ResubmitAfterSuccessFlagsAll(form: Form)
    ensures Submit(form).succeeded ==>
      var again := Submit(Submit(form).form);
      && !again.succeeded
      && again.form.markers == Markers(Shown, Shown, Shown)
  {
    assert Trim("") == [];
  }

  /** A failed submit keeps the values, so submitting again gives the same result. */
  lemma ResubmitAfterFailureIsStable(form: Form)
    ensures !Submit(form).succeeded ==> Submit(Submit(form).form) == Submit(form)
  {
  }
}

=== FILE: indicators.dfy ===
/** Rows of on/off markers where exactly one entry is on: the carousel's indicator
    dots and shown slide, and the project filter's active button. */
module Indicators {

  /** Number of `true` entries in `s`. */
  function CountTrue(s: seq<bool>): (k: nat)
    ensures k <= |s|
    ensures k == 0 <==> forall i :: 0 <= i < |s| ==> !s[i]
  {
    if |s| == 0 then 0 else (if s[|s| - 1] then 1 else 0) + CountTrue(s[..|s| - 1])
  }

  /** A row of `n` markers in which exactly the one at `k` is on. */
  function OneHot(n: nat, k: nat): (r: seq<bool>)
    requires k < n
    ensures |r| == n
    ensures forall i :: 0 <= i < n ==> (r[i] <==> i == k)
  {
    seq(n, i => i == k)
  }

  /** Exactly one marker of a one-hot row is on. */
  lemma {:induction false} OneHotCountsOne(n: nat, k: nat)
    requires k < n
    ensures CountTrue(OneHot(n, k)) == 1
  {
    var r := OneHot(n, k);
    if k == n - 1 {
      assert r[..n - 1] == seq(n - 1, i => false);
      assert CountTrue(r[..n - 1]) == 0;
    } else {
      assert r[..n - 1] == OneHot(n - 1, k);
      OneHotCountsOne(n - 1, k);
    }
  }

  /** Conversely, a row with exactly one marker on is the one-hot row of that marker. */
  lemma {:induction false} CountOneIsOneHot(s: seq<bool>, k: nat)
    requires k < |s| && s[k]
    requires CountTrue(s) == 1
    ensures s == OneHot(|s|, k)
  {
    var n := |s|;
    if k == n - 1 {
      assert CountTrue(s[..n - 1]) == 0;
      forall i | 0 <= i < n - 1
        ensures !s[i]
      {
        assert s[..n - 1][i] == s[i];
      }
    } else {
      assert s[..n - 1][k] == s[k];
      CountOneIsOneHot(s[..n - 1], k);
      forall i | 0 <= i < n - 1
        ensures s[i] == (i == k)
      {
        assert s[..n - 1][i] == s[i];
      }
    }
  }
}

=== FILE: project_filter.dfy ===
/** The project filter (`setupProjectFilter`): clicking a filter button makes it the only
    active button and shows exactly the project cards its category selects. */
module ProjectFilter {
  import opened Wrappers
  import opened Indicators

  /** A card's inline `display` style: never set yet, `flex`, or `none`. */
  datatype Display = Unstyled | Flex | Hidden

  /** A project card: its class tokens and its inline display style. */
  datatype Card = Card(classes: set<string>, display: Display)

  /** The filter widget: each button's `data-filter` attribute (absent reads as `null`),
      which buttons carry the `active` class, and the cards. */
  datatype Filter = Filter(buttons: seq<Option<string>>, active: seq<bool>, cards: seq<Card>) {
    predicate Valid() {
      |active| == |buttons|
    }
  }

  /** Whether a card is shown under a button's `data-filter` value. An absent attribute
      is `null`: it never equals `"all"`, and `classList.contains(null)` looks for the
      token `"null"`. */
  predicate Selects(filter: Option<string>, card: Card) {
    match filter
    case Some(v) => v == "all" || v in card.classes
    case None => "null" in card.classes
  }

  /** The click handler of button `b`. */
  function Click(f: Filter, b: nat): (r: Filter)
    requires f.Valid() && b < |f.buttons|
    ensures r.Valid() && r.buttons == f.buttons
    ensures forall i :: 0 <= i < |r.active| ==> (r.active[i] <==> i == b)
    ensures |r.cards| == |f.cards|
    ensures forall i :: 0 <= i < |r.cards| ==> r.cards[i].classes == f.cards[i].classes
    ensures forall i :: 0 <= i < |r.cards| ==>
      r.cards[i].display == (if Selects(f.buttons[b], f.cards[i]) then Flex else Hidden)
  {
    var filter := f.buttons[b];
    Filter(
      f.buttons,
      OneHot(|f.buttons|, b),
      seq(|f.cards|, i requires 0 <= i < |f.cards| =>
        f.cards[i].(display := if Selects(filter, f.cards[i]) then Flex else Hidden)))
  }

  /** After a click exactly one button is active, and it is the clicked one. */
  lemma ClickActivatesOnlyClicked(f: Filter, b: nat)
    requires f.Valid() && b < |f.buttons|
    ensures CountTrue(Click(f, b).active) == 1 && Click(f, b).active[b]
  {
    OneHotCountsOne(|f.buttons|, b);
  }

  /** The view is a function of the last click alone: an earlier click leaves no trace. */
  lemma LastClickDecides(f: Filter, a: nat, b: nat)
    requires f.Valid() && a < |f.buttons| && b < |f.buttons|
    ensures Click(Click(f, a), b) == Click(f, b)
  {
  }

  /** The `"all"` button shows every card. */
  lemma AllShowsEveryCard(f: Filter, b: nat)
    requires f.Valid() && b < |f.buttons| && f.buttons[b] == Some("all")
    ensures forall i :: 0 <= i < |f.cards| ==> Click(f, b).cards[i].display == Flex
  {
  }

  /** A category button other than `"all"` shows exactly the cards tagged with it. */
  lemma CategoryShowsOnlyTagged(f: Filter, b: nat, category: string)
    requires f.Valid() && b < |f.buttons| && f.buttons[b] == Some(category)
    requires category != "all"
    ensures forall i :: 0 <= i < |f.cards| ==>
      (Click(f, b).cards[i].display == Flex <==> category in f.cards[i].classes)
  {
  }
}

=== FILE: text.dfy ===
/** JavaScript's notion of white space and `String.prototype.trim`, over `seq<char>`.

    The character set is the one ECMA-262 gives both the regular-expression class `\s`
    and `trim`: its WhiteSpace production (tab, vertical tab, form feed, the byte-order
    mark and every Unicode space separator) together with its LineTerminator production
    (line feed, carriage return, line and paragraph separator). The space separators
    are written out as they stand in Unicode 15. */
module Text {

  predicate IsWhitespace(c: char) {
    || c == '\t' || c == '\n' || c == '\U{000B}' || c == '\U{000C}' || c == '\r'
    || c == ' ' || c == '\U{00A0}' || c == '\U{1680}'
    || ('\U{2000}' <= c <= '\U{200A}')
    || c == '\U{2028}' || c == '\U{2029}' || c == '\U{202F}' || c == '\U{205F}'
    || c == '\U{3000}' || c == '\U{FEFF}'
  }

  predicate AllWhitespace(s: string) {
    forall i :: 0 <= i < |s| ==> IsWhitespace(s[i])
  }

  /** `r` is what trimming `s` must give: the slice `s[i..j]` left after removing
      white space only, and which neither starts nor ends with white space. */
  ghost predicate IsTrimOf(s: string, r: string) {
    exists i, j :: TrimBounds(s, i, j) && r == s[i..j]
  }

  /** `s[..i]` and `s[j..]` are white space and `s[i..j]` neither starts nor ends with it. */
  predicate TrimBounds(s: string, i: int, j: int) {
    && 0 <= i <= j <= |s|
    && AllWhitespace(s[..i]) && AllWhitespace(s[j..])
    && (i == j || (!IsWhitespace(s[i]) && !IsWhitespace(s[j - 1])))
  }

  /** Drops leading white space. */
  function TrimStart(s: string): (r: string)
    ensures |r| <= |s| && r == s[|s| - |r|..]
    ensures AllWhitespace(s[..|s| - |r|])
    ensures r == [] || !IsWhitespace(r[0])
  {
    if |s| > 0 && IsWhitespace(s[0]) then
      var r := TrimStart(s[1..]);
      assert s[..|s| - |r|] == [s[0]] + s[1..][..|s| - 1 - |r|];
      r
    else
      s
  }

  /** Drops trailing white space. */
  function TrimEnd(s: string): (r: string)
    ensures |r| <= |s| && r == s[..|r|]
    ensures AllWhitespace(s[|r|..])
    ensures r == [] || !IsWhitespace(r[|r| - 1])
  {
    if |s| > 0 && IsWhitespace(s[|s| - 1]) then
      var r := TrimEnd(s[..|s| - 1]);
      assert s[|r|..] == s[..|s| - 1][|r|..] + [s[|s| - 1]];
      r
    else
      s
  }

  /** `String.prototype.trim`. */
  function Trim(s: string): (r: string)
    ensures IsTrimOf(s, r)
  {
    var t := TrimStart(s);
    var r := TrimEnd(t);
    TrimKeepsSlice(s, t, r);
    r
  }

  /** Dropping white space from the front of `s` to get `t`, then from the back of `t` to
      get `r`, keeps a trim slice of `s`. */
  lemma {:induction false} TrimKeepsSlice(s: string, t: string, r: string)
    requires |t| <= |s| && t == s[|s| - |t|..] && AllWhitespace(s[..|s| - |t|])
    requires |r| <= |t| && r == t[..|r|] && AllWhitespace(t[|r|..])
    requires r == [] || (!IsWhitespace(r[0]) && !IsWhitespace(r[|r| - 1]))
    ensures TrimBounds(s, |s| - |t|, |s| - |t| + |r|)
    ensures s[|s| - |t|..|s| - |t| + |r|] == r
  {
    var i := |s| - |t|;
    var j := i + |r|;
    assert s[j..] == t[|r|..];
    if i < j {
      assert s[i] == r[0] && s[j - 1] == r[|r| - 1];
    }
  }

  /** `IsTrimOf` pins its result down: there is only one trim of a string. */
  lemma TrimIsUnique(s: string, r1: string, r2: string)
    requires IsTrimOf(s, r1) && IsTrimOf(s, r2)
    ensures r1 == r2
  {
  }

  /** A field counts as blank for the form exactly when trimming empties it,
      which is exactly when it consists of white space only. */
  lemma TrimEmptyIffAllWhitespace(s: string)
    ensures Trim(s) == [] <==> AllWhitespace(s)
  {
  }

  /** Trimming leaves a string without surrounding white space unchanged. */
  lemma TrimOfTrimmed(s: string)
    requires s == [] || (!IsWhitespace(s[0]) && !IsWhitespace(s[|s| - 1]))
    ensures Trim(s) == s
  {
  }

  /** One white-space character on either side of an already trimmed string is removed. */
  lemma TrimOfPadded(s: string, c: char)
    requires s != [] && !IsWhitespace(s[0]) && !IsWhitespace(s[|s| - 1])
    requires IsWhitespace(c)
    ensures Trim([c] + s) == s && Trim(s + [c]) == s
  {
    var l := [c] + s;
    assert TrimBounds(l, 1, |l|) && l[1..|l|] == s;
    TrimIsUnique(l, Trim(l), s);
    var t := s + [c];
    assert TrimBounds(t, 0, |s|) && t[0..|s|] == s;
    TrimIsUnique(t, Trim(t), s);
  }
}

=== FILE: theme.dfy ===
/** The light/dark theme toggle (`setupDarkModeToggle`): a flag read once from local
    storage, flipped on every click and written back as one of two markers. */
module Theme {
  import opened Wrappers

  const StorageKey := "darkMode"
  const EnabledMarker := "enabled"
  const DisabledMarker := "disabled"

  /** The toggle button's label: the moon offers dark mode, the sun offers light mode. */
  datatype Icon = Moon | Sun

  /** The handler's flag, the body's `dark-mode` class, the button label and the
      browser's local storage. */
  datatype State = State(dark: bool, bodyDark: bool, icon: Icon, storage: map<string, string>)

  /** The marker written for a flag value. */
  function Marker(dark: bool): (s: string)
    ensures s == EnabledMarker || s == DisabledMarker
  {
    if dark then EnabledMarker else DisabledMarker
  }

  /** Reading the flag back: only the exact `"enabled"` marker means dark; an absent key
      (`getItem` gives `null`) or any other value means light. */
  predicate IsStoredDark(storage: map<string, string>) {
    StorageKey in storage && storage[StorageKey] == EnabledMarker
  }

  function IconFor(dark: bool): Icon {
    if dark then Sun else Moon
  }

  /** Set-up: `None` when the page has no toggle button; otherwise the flag is read from
      storage, and only a dark flag touches the page (the body gets `dark-mode`, the
      button the sun). A light flag leaves the body class and label as the page had them. */
  function Setup(buttonPresent: bool, storage: map<string, string>, bodyDark: bool, icon: Icon)
    : (r: Option<State>)
    ensures !buttonPresent <==> r == None
    ensures r.Some? ==> r.value.dark == (StorageKey in storage && storage[StorageKey] == "enabled")
    ensures r.Some? ==> r.value.storage == storage
    ensures r.Some? && r.value.dark ==> r.value.bodyDark && r.value.icon == Sun
    ensures r.Some? && !r.value.dark ==> r.value.bodyDark == bodyDark && r.value.icon == icon
  {
    if !buttonPresent then None
    else
      var dark := IsStoredDark(storage);
      if dark then Some(State(true, true, Sun, storage))
      else Some(State(false, bodyDark, icon, storage))
  }

  /** The click handler: the body class is toggled (not set), the flag flipped, the label
      matched to the flag and the flag's marker stored under the fixed key. */
  function Click(t: State): (r: State)
    ensures r.dark == !t.dark && r.bodyDark == !t.bodyDark
    ensures r.icon == (if r.dark then Sun else Moon)
    ensures r.storage.Keys == t.storage.Keys + {StorageKey}
    ensures r.storage[StorageKey] == (if r.dark then "enabled" else "disabled")
    ensures forall k :: k in t.storage && k != StorageKey ==> r.storage[k] == t.storage[k]
  {
    var dark := !t.dark;
    State(dark, !t.bodyDark, IconFor(dark), t.storage[StorageKey := Marker(dark)])
  }

  /** A stored marker reads back as the flag that wrote it. */
  lemma MarkerRoundTrip(storage: map<string, string>, dark: bool)
    ensures IsStoredDark(storage[StorageKey := Marker(dark)]) == dark
  {
  }

  /** The page, the stored flag and the in-memory flag agree. */
  predicate Consistent(t: State) {
    && t.bodyDark == t.dark
    && t.icon == IconFor(t.dark)
    && StorageKey in t.storage && t.storage[StorageKey] == Marker(t.dark)
  }

  /** After the first click storage holds the flag's marker, and the next page load reads
      back the flag the click left. */
  lemma ClickPersists(t: State)
    ensures var r := Click(t);
      && StorageKey in r.storage && r.storage[StorageKey] == Marker(r.dark)
      && Setup(true, r.storage, r.bodyDark, r.icon).value.dark == r.dark
  {
  }

  /** Clicks keep a consistent state consistent. */
  lemma ClickKeepsConsistent(t: State)
    requires Consistent(t)
    ensures Consistent(Click(t))
  {
  }

  /** On a page that starts light with the moon label, set-up gives a consistent state
      whenever storage holds a marker. */
  lemma SetupIsConsistent(storage: map<string, string>)
    requires StorageKey in storage
    requires storage[StorageKey] == EnabledMarker || storage[StorageKey] == DisabledMarker
    ensures Consistent(Setup(true, storage, false, Moon).value)
  {
  }

  /** Two clicks restore the flag and the body class of any state, and the whole state
      (label and stored value too) when the label and stored value already match the
      flag, as they do after any click. */
  lemma TwoClicksRestore(t: State)
    ensures Click(Click(t)).dark == t.dark && Click(Click(t)).bodyDark == t.bodyDark
    ensures t.icon == IconFor(t.dark) && StorageKey in t.storage && t.storage[StorageKey] == Marker(t.dark)
      ==> Click(Click(t)) == t
  {
  }

  /** From the first click on, the state cycles with period two. */
  lemma ClickedStateCycles(t: State)
    ensures Click(Click(Click(t))) == Click(t)
  {
  }

  /** A page that starts with `dark-mode` on the body but no stored `"enabled"` never
      gets its body class and flag into agreement: the class is toggled, not set. */
  lemma PreDarkBodyStaysOutOfStep(storage: map<string, string>, icon: Icon, t: State)
    requires !IsStoredDark(storage)
    requires t == Setup(true, storage, true, icon).value
    ensures t.bodyDark != t.dark
    ensures Click(t).bodyDark != Click(t).dark
  {
  }
}

=== FILE: wrappers.dfy ===
/** The optional value used wherever the page script looks something up that may be absent:
    a container element, a stored preference, an attribute. */
module Wrappers {
  datatype Option<+T> = None | Some(value: T)
}
